=== FILE: README.md ===
# Omnidome projector tuning panel

A Dafny model of the per-projector tuning panel of Omnidome
(`omni::ui::proj::Tuning`, src/app/proj/Tuning.cpp). Each projector in a
session gets one panel. The panel holds sliders for the projector's setup
parameters. Under its Qt widget calls it is a small state machine over plain
values, and that is what is modelled:

- the binding of the panel to a tuning, an `(index, session)` pair, which
  re-initialises only when the pair changes (`setTuning`);
- the cyclic window state: no preview, adjustment sliders, FOV sliders
  (`setWindowState`, `setNextWindowState`);
- the layout pass (`reorderWidgets`). It hides the preview and the sliders,
  lists the title bar, the preview and a slider group, stacks them inside a
  2-pixel border and sums their heights;
- the copy of slider readings into the fields of a `FreeSetup` or a
  `PeripheralSetup`, chosen by the setup's type tag (`updateParameters`);
- selection: a boolean flag, the accent colour of every slider derived from
  it, focus events, and the signals `selected`, `projectorSetupChanged` and
  `closed(index)`.

Modules:

- `Setups` (setups.dfy) holds the opaque slider reading type `Value`, the
  slider names, the setup fields and the `Setup` datatype
  (`FreeSetup | PeripheralSetup | Other`). It also holds the copy table
  `CopiedFrom` and the setter chain `ApplySetters`.
- `Sessions` (sessions.dfy) holds the session. It is an object the panel
  refers to without owning it, and the panel compares sessions by reference.
  Its tunings are records of a colour and an optional setup.
- `WindowStates` (window_states.dfy) holds the three window states and the
  cycle.
- `Layout` (layout.dfy) holds the slider creation order, the slider groups,
  the widget list for a state and a type tag, and the stacked heights.
- `TuningPanels` (tuning_panel.dfy) holds the class `TuningPanel`. Its fields
  are the index, the session, the window state, the selection flag, the
  slider readings, the slider accents, the title colour, a visibility and
  geometry record per child widget, the panel's width, height and minimum
  height, the preview, the fullscreen preview, and the log of emitted
  signals.
- `Wrappers` (wrappers.dfy) holds `Option`, used where the source holds a
  pointer that may be null.

Where the source dereferences without checking, the model turns that into a
precondition:

- `session_->tunings()[index_]` is indexed without a bounds check, so a bound
  index must be in range (`InRange`).
- `setTuning` dereferences `tuning()` when the pair changes, so a changed
  pair must name an existing tuning.
- In ADJUSTMENT_SLIDERS, `reorderWidgets` dereferences the projector setup
  without a null check. It then looks the type tag up with `at`, which
  throws for an unknown tag. So that state needs a setup whose tag is a key
  of the slider groups (`CanLayOut`). `updateParameters` does check for a
  missing setup.

The slider groups are looked up by the type-tag string, as in the source. A
setup of kind `Other` whose tag is `"FOV"` would therefore get the FOV group
in ADJUSTMENT_SLIDERS.

Preview height. The source computes `width() / 4.0 * 3.0` in floating point
and converts it to `int`, which truncates. For a width of zero or more that
is `(3 * width) / 4`. `Layout.PreviewHeight` states the equivalence against
the real-valued expression.

Other points where the model follows the code closely:

- The bound tuning's colour is set to the title colour only when
  `updateColor` runs while the panel is selected, not continuously while it
  stays selected.
- `resizeEvent` only repaints, so a width change does not redo the layout
  until the next layout pass (`Resize`).
- `titleBar_` is created in `setup` before anything can lay the panel out.
  So the title-bar half of the guard at line 254 never fires, and the model
  keeps only the "no tuning bound" half.

## Model

| member | source | states |
|---|---|---|
| `TuningPanels.TuningPanel.SetTuning` | src/app/proj/Tuning.cpp:54-78 | the new index and session are always stored. If the pair is unchanged, the preview, its flags, the title colour, the fullscreen preview and the layout are all left as they were, so a second call with the same pair does nothing. If the pair changed, the preview is rebound, its border is set to 0, keep-aspect-ratio is turned off, view-only is turned on and it repaints once. The title colour becomes the tuning's colour, an attached fullscreen preview is rebound, and the panel is laid out for the new tuning |
| `TuningPanels.TuningPanel.Unbound` | src/app/proj/Tuning.cpp:33-38 | the panel built by setup() alone: no session bound, not selected, the preview keeping its aspect ratio, no fullscreen preview, no signals, no slider accents yet, the initial widget records and a height and minimum height of 0 |
| `TuningPanels.TuningPanel.Bound` | src/app/proj/Tuning.cpp:23-31 | setup() followed by setTuning: bound to the pair, with the title colour taken from the tuning and the preview reset. The width and slider readings are the ones passed in. The panel starts unselected, with no accents, no fullscreen preview and no signals, and it is laid out at that width from the initial widget records |
| `Setups.ApplySetters` | src/app/proj/Tuning.cpp:108-134 | for the setup's type tag, every field of the copy table holds the reading of its slider. No other field changes or appears, and the setup keeps its kind and tag. A tag with no branch changes nothing |
| `Setups.ApplySettersIdempotent` | src/app/proj/Tuning.cpp:108-134 | copying the same readings a second time leaves the setup as the first copy left it |
| `Setups.FovNeverCopied` | src/app/proj/Tuning.cpp:100-134 | the FOV and throw-ratio sliders are not copied into any setup field, whatever the type tag |
| `TuningPanels.TuningPanel.UpdateParameters` | src/app/proj/Tuning.cpp:100-139 | with no tuning or no projector setup, nothing changes and nothing is emitted. Otherwise the bound tuning's setup becomes the table copy of the slider readings and no other tuning changes. The preview and any fullscreen preview repaint once, keeping the tuning they show, and projectorSetupChanged is appended to the signals, whatever the tag |
| `TuningPanels.TuningPanel.UpdateViews` | src/app/proj/Tuning.cpp:157-162 | the preview repaints once, and so does the fullscreen preview when one is attached |
| `TuningPanels.TuningPanel.AttachScreen` | src/app/proj/Tuning.cpp:142-150 | a fullscreen preview is created, bound to the panel's session and index |
| `TuningPanels.TuningPanel.DetachScreen` | src/app/proj/Tuning.cpp:152-155 | the fullscreen preview is dropped |
| `Layout.ParametersCover` | src/app/proj/Tuning.cpp:180-240 | setup creates every one of the twelve sliders |
| `Layout.ParametersDistinct` | src/app/proj/Tuning.cpp:180-240 | setup creates no slider twice |
| `Layout.GroupsDistinct` | src/app/proj/Tuning.cpp:243-246 | no slider group lists a slider twice |
| `Layout.GroupsMatchCopyTables` | src/app/proj/Tuning.cpp:243-245 | for "FreeSetup" and "PeripheralSetup", the adjustment group shown is exactly the set of sliders that updateParameters copies into a setup with that tag, in both directions |
| `TuningPanels.CollectWidgets` | src/app/proj/Tuning.cpp:265-293 | the push_back construction yields the widget list of the window state and type tag |
| `Layout.WidgetListMembers` | src/app/proj/Tuning.cpp:265-293 | the title bar comes first and nowhere else. The preview is listed if and only if the state is not NO_DISPLAY. A slider is listed if and only if it is in the tag's group in ADJUSTMENT_SLIDERS, or in the "FOV" group in FOV_SLIDERS |
| `Layout.SlidersMembers` | src/app/proj/Tuning.cpp:276-292 | the sliders pushed for a group are exactly the sliders of that group, in both directions |
| `Layout.WidgetListDistinct` | src/app/proj/Tuning.cpp:265-293 | no widget is listed twice |
| `Layout.PreviewHeight` | src/app/proj/Tuning.cpp:299 | the integer preview height is the truncation of width / 4.0 * 3.0 |
| `Layout.Stacked` | src/app/proj/Tuning.cpp:295-307 | the first widget starts at the border, each widget starts where the previous one ends, and the panel ends one border below the last widget |
| `Layout.StackHeightAppend` | src/app/proj/Tuning.cpp:295-306 | the summed height of two consecutive runs of widgets is the sum of their summed heights |
| `Layout.SlidersHeight` | src/app/proj/Tuning.cpp:299 | a run of sliders is 25 pixels high per slider |
| `Layout.PanelHeightByState` | src/app/proj/Tuning.cpp:256-311 | the panel height is 29 in NO_DISPLAY. In ADJUSTMENT_SLIDERS it is 4 + 25 + the preview height + 25 per slider of the tag's group. In FOV_SLIDERS it is 4 + 25 + the preview height + 50 |
| `TuningPanels.TuningPanel.HideAll` | src/app/proj/Tuning.cpp:259-262 | the preview and every slider are hidden. No geometry changes, and the title bar is left as it was |
| `TuningPanels.TuningPanel.PlaceWidgets` | src/app/proj/Tuning.cpp:295-311 | each listed widget is shown in its slot at x = 2, with width = panel width - 4, its own height, and y = 2 + the heights above it. Unlisted widgets are untouched. The height and the minimum height are both 2 + the summed heights + 2 |
| `TuningPanels.HideThenPlace` | src/app/proj/Tuning.cpp:258-311 | hiding every widget but the title bar and then placing a list that starts with the title bar leaves exactly the listed widgets shown, each in its slot, the unlisted ones with their old geometry, and the stacked height as height and minimum height |
| `TuningPanels.TuningPanel.ReorderWidgets` | src/app/proj/Tuning.cpp:252-312 | with no tuning bound, nothing changes. Otherwise exactly the listed widgets are visible, each in its slot. Unlisted widgets keep their previous geometry. The height and the minimum height equal the stacked height inside the border |
| `WindowStates.FromOrdinal` | src/app/proj/Tuning.cpp:327 | the cast back from an integer below NUM_WINDOW_STATES yields the enumerator with that value |
| `WindowStates.OrdinalRoundTrip` | src/app/proj/Tuning.cpp:327 | casting a state to int and back yields the same state |
| `WindowStates.NextOrder` | src/app/proj/Tuning.cpp:325-328 | the cycle goes NO_DISPLAY, ADJUSTMENT_SLIDERS, FOV_SLIDERS and wraps back to NO_DISPLAY |
| `WindowStates.AdvanceOrdinal` | src/app/proj/Tuning.cpp:325-328 | n successive advances add n to the state's integer value, modulo NUM_WINDOW_STATES |
| `WindowStates.AdvanceCycle` | src/app/proj/Tuning.cpp:325-328 | n successive advances return to the starting state if and only if n is a multiple of NUM_WINDOW_STATES |
| `TuningPanels.TuningPanel.SetWindowState` | src/app/proj/Tuning.cpp:319-323 | the state is stored and the panel is laid out for it, or left as it was when no tuning is bound |
| `TuningPanels.TuningPanel.SetNextWindowState` | src/app/proj/Tuning.cpp:325-328 | the state becomes (state + 1) % NUM_WINDOW_STATES and the panel is laid out again |
| `TuningPanels.CycleWindowStates` | src/app/proj/Tuning.cpp:325-328 | three successive setNextWindowState calls on a panel bring it back to the window state it started in |
| `TuningPanels.TuningPanel.SessionModeChange` | src/app/proj/Tuning.cpp:357-373 | with no session, nothing changes. Otherwise the panel is laid out, whatever the mode |
| `TuningPanels.TuningPanel.UpdateColor` | src/app/proj/Tuning.cpp:338-350 | every slider's accent is the title colour while selected and #cccccc otherwise. The bound tuning's colour becomes the title colour only while selected, and no other tuning changes |
| `TuningPanels.TuningPanel.SetSelected` | src/app/proj/Tuning.cpp:330-336 | the flag is stored, selected is emitted exactly when the flag is true, and the accents and the tuning colour follow as in updateColor |
| `TuningPanels.TuningPanel.EventFilter` | src/app/proj/Tuning.cpp:429-449 | focus-in selects the panel and returns true. Focus-out deselects it and returns false. Any other event returns false and changes nothing, and only the two focus events need the index to be in range |
| `TuningPanels.TuningPanel.FocusChanged` | src/app/proj/Tuning.cpp:456-467 | focusInEvent selects the panel and focusOutEvent deselects it, as setSelected does |
| `TuningPanels.TuningPanel.PrepareRemove` | src/app/proj/Tuning.cpp:352-355 | closed is emitted carrying the bound index |
| `TuningPanels.TuningPanel.ShowEvent` | src/app/proj/Tuning.cpp:381-384 | showing the panel lays it out |
| `TuningPanels.TuningPanel.Resize` | src/app/proj/Tuning.cpp:375-379 | a resize changes only the width and does not redo the layout |

## Left out

- src/app/ToolBar.h: it holds only declarations (mode buttons and a signal) and no behaviour.
- Painting (`paintEvent`), style sheets and the real Qt `setGeometry`, `show`, `hide`, `setParent`, `setMinimumSize` and `resize` calls. These are painting and toolkit calls. Their effect is modelled as the visibility and geometry records and the `height` and `minHeight` fields.
- Drag handling (`mouseMoveEvent`, `startDrag` and the MouseMove branch of `eventFilter`). It builds a drag with a placeholder text payload and never executes it, so the panel's state is unaffected. `EventFilter` returns false for a MouseMove, as the source does.
- The insides of the preview surface (`TuningGLView`): OpenGL rendering, `setFullscreen`, `hide`, and `fullscreenToggle`'s drawing flag. These are rendering internals. A preview is modelled as the tuning it shows plus a repaint count.
- Slider ranges, steps, pivots and suffixes in `setup`. These are floating-point widget configuration. The sliders' default readings are a constructor parameter.
- `tuning()->setupProjector()`: the projector geometry recomputation belongs to setup classes that are not part of this model.
- `Setups.ApplySetters`: a setter is modelled as an update of one named field. Any derived state the real setters recompute is not captured.
- The focus monitoring of the title bar and the preview (`installEventFilter`): this is toolkit wiring. `EventFilter` models the filter itself.
- The initial values of fields declared in the header (Tuning.h), which is not part of this model. The constructors take the width, the window state, the slider readings and the preview's own display defaults as parameters; `Unbound` also takes the title bar's colour, which `Bound` takes from the tuning instead. Both start the panel not selected, and `Unbound` starts it with index 0 and no session.
- The integer values of the WindowState enumerators come from the same header. The model takes them in the order NO_DISPLAY, ADJUSTMENT_SLIDERS, FOV_SLIDERS, counting from 0.
- `Sessions.Session`: a session is modelled only by its tunings and its mode. Its own operations belong to the external session model.
- Changing a slider's reading belongs to the ParameterWidget base class, which is not part of this model. The readings are a field that no panel method writes.
- The getters `index()`, `session()`, `windowState()` and `isSelected()` return a field each. The model reads those fields directly. `tuning()` is the definition `TuningPanel.Tuning()` over `Sessions.TuningAt`: the session's tuning at the index, or none without a session. `BoundSetup` is defined through it, and the contract of `UpdateParameters` reads it through `BoundSetup`.
- The panel's own `update()` repaint at the end of `updateColor` and in `resizeEvent` is painting, so it is not modelled.

=== FILE: layout.dfy ===
/**
 * The layout pass of the tuning panel (reorderWidgets) on values: which
 * widgets are listed for a window state and a setup type tag, and how high
 * the stacked list is.
 */
module Layout {
  import opened Wrappers
  import opened Setups
  import opened WindowStates

  /** The child widgets the layout pass places. */
  datatype Widget = TitleBar | Preview | Slider(name: SliderName)

  const Border: int := 2

  /** The fixed height of the title bar and of every slider. */
  const RowHeight: int := 25

  /** The sliders in the order setup creates them (the order of parameters_). */
  const Parameters: seq<SliderName> :=
    [FOV, ThrowRatio, Yaw, TowerHeight, Distance, Shift, X, Y, Z, Pitch, Roll, DeltaYaw]

  /** The slider groups built at the end of setup, keyed by type tag, plus the "FOV" group. */
  const SliderGroups: map<string, seq<SliderName>> :=
    map[
      "FreeSetup" := [Yaw, Roll, Pitch, X, Y, Z],
      "PeripheralSetup" := [Yaw, Distance, Shift, TowerHeight, Pitch, DeltaYaw, Roll],
      "FOV" := [FOV, ThrowRatio]
    ]

  const AllSliders: set<SliderName> :=
    {FOV, ThrowRatio, Yaw, TowerHeight, Distance, Shift, X, Y, Z, Pitch, Roll, DeltaYaw}

  const AllWidgets: set<Widget> :=
    {TitleBar, Preview} + set n | n in AllSliders :: Slider(n)

  /** Every slider is created by setup. */
  lemma ParametersCover(n: SliderName)
    ensures n in Parameters && n in AllSliders
  {
  }

  /** No slider is created twice. */
  lemma ParametersDistinct()
    ensures forall i, j :: 0 <= i < j < |Parameters| ==> Parameters[i] != Parameters[j]
  {
  }

  /** Every widget is one the panel owns. */
  lemma AllWidgetsCover(w: Widget)
    ensures w in AllWidgets
  {
    if w.Slider? {
      ParametersCover(w.name);
    }
  }

  /** No group lists a slider twice. */
  lemma GroupsDistinct(tag: string)
    requires tag in SliderGroups
    ensures forall i, j :: 0 <= i < j < |SliderGroups[tag]| ==> SliderGroups[tag][i] != SliderGroups[tag][j]
  {
  }

  /**
   * The adjustment sliders shown for a setup are exactly the sliders that
   * updateParameters copies into a setup of that type.
   */
  lemma GroupsMatchCopyTables(tag: string)
    requires tag == "FreeSetup" || tag == "PeripheralSetup"
    ensures forall f :: CopiedFrom(tag, f).Some? ==> CopiedFrom(tag, f).value in SliderGroups[tag]
    ensures forall n :: n in SliderGroups[tag] ==> exists f :: CopiedFrom(tag, f) == Some(n)
  {
    forall n | n in SliderGroups[tag]
      ensures exists f :: CopiedFrom(tag, f) == Some(n)
    {
      var f := match n
        case Yaw => YawAngle
        case Pitch => PitchAngle
        case Roll => RollAngle
        case X => PosX
        case Y => PosY
        case Z => PosZ
        case DeltaYaw => DeltaYawAngle
        case Distance => DistanceCenter
        case TowerHeight => TowerHeightLevel
        case _ => ShiftOffset;
      assert CopiedFrom(tag, f) == Some(n);
    }
  }

  function Sliders(names: seq<SliderName>): (ws: seq<Widget>)
  {
    seq(|names|, i requires 0 <= i < |names| => Slider(names[i]))
  }

  /** A slider widget is in the list built from a group exactly when its name is in the group. */
  lemma SlidersMembers(names: seq<SliderName>)
    ensures forall n :: Slider(n) in Sliders(names) <==> n in names
  {
    forall n | n in names
      ensures Slider(n) in Sliders(names)
    {
      var i :| 0 <= i < |names| && names[i] == n;
      assert Sliders(names)[i] == Slider(n);
    }
  }

  /**
   * The ordered list the layout pass builds: the title bar, the preview unless
   * the state is NO_DISPLAY, then the group for the setup's tag in
   * ADJUSTMENT_SLIDERS or the "FOV" group in FOV_SLIDERS. The group lookup
   * fails for an unknown tag, so the tag must be a key in ADJUSTMENT_SLIDERS.
   */
  function WidgetList(state: WindowState, tag: string): seq<Widget>
    requires state == AdjustmentSliders ==> tag in SliderGroups
  {
    [TitleBar]
    + (if state != NoDisplay then [Preview] else [])
    + (if state == AdjustmentSliders then Sliders(SliderGroups[tag]) else [])
    + (if state == FovSliders then Sliders(SliderGroups["FOV"]) else [])
  }

  /**
   * The membership rules of the list: the title bar comes first and only
   * there, the preview is listed if and only if the state is not NO_DISPLAY,
   * and a slider is listed if and only if it is in the tag's group in
   * ADJUSTMENT_SLIDERS or in the "FOV" group in FOV_SLIDERS.
   */
  lemma WidgetListMembers(state: WindowState, tag: string)
    requires state == AdjustmentSliders ==> tag in SliderGroups
    ensures |WidgetList(state, tag)| > 0 && WidgetList(state, tag)[0] == TitleBar
    ensures TitleBar !in WidgetList(state, tag)[1..]
    ensures Preview in WidgetList(state, tag) <==> state != NoDisplay
    ensures forall n :: Slider(n) in WidgetList(state, tag) <==>
              (state == AdjustmentSliders && n in SliderGroups[tag]) ||
              (state == FovSliders && n in SliderGroups["FOV"])
  {
    if state == AdjustmentSliders {
      SlidersMembers(SliderGroups[tag]);
    } else if state == FovSliders {
      SlidersMembers(SliderGroups["FOV"]);
    }
  }

  /** No widget is listed twice, so each listed widget gets exactly one slot. */
  lemma WidgetListDistinct(state: WindowState, tag: string)
    requires state == AdjustmentSliders ==> tag in SliderGroups
    ensures forall i, j :: 0 <= i < j < |WidgetList(state, tag)| ==>
              WidgetList(state, tag)[i] != WidgetList(state, tag)[j]
  {
  }

  /**
   * The preview's height, width() / 4.0 * 3.0 converted to int. The
   * conversion truncates toward zero, which for a width of at least zero is
   * the floor of three quarters of the width.
   */
  function PreviewHeight(width: nat): (h: nat)
    ensures h as real <= (width as real) / 4.0 * 3.0 < h as real + 1.0
  {
    (3 * width) / 4
  }

  function WidgetHeight(w: Widget, width: nat): int {
    if w == Preview then PreviewHeight(width) else RowHeight
  }

  /** The summed heights of a list of widgets. */
  function StackHeight(ws: seq<Widget>, width: nat): int {
    if ws == [] then 0 else StackHeight(ws[..|ws| - 1], width) + WidgetHeight(ws[|ws| - 1], width)
  }

  /** The y offset of the j-th listed widget: the border plus everything above it. */
  function Top(ws: seq<Widget>, j: nat, width: nat): int
    requires j <= |ws|
  {
    Border + StackHeight(ws[..j], width)
  }

  /** The panel's height after the pass: the listed heights inside a border at top and bottom. */
  function PanelHeight(ws: seq<Widget>, width: nat): int {
    Border + StackHeight(ws, width) + Border
  }

  lemma {:induction false} StackHeightAppend(a: seq<Widget>, b: seq<Widget>, width: nat)
    ensures StackHeight(a + b, width) == StackHeight(a, width) + StackHeight(b, width)
  {
    if b != [] {
      assert (a + b)[..|a + b| - 1] == a + b[..|b| - 1];
      StackHeightAppend(a, b[..|b| - 1], width);
    } else {
      assert a + b == a;
    }
  }

  /**
   * The widgets are stacked without gaps or overlap: each starts where the
   * previous one ends, the first at the border, and the panel ends one border
   * below the last.
   */
  lemma Stacked(ws: seq<Widget>, width: nat)
    ensures Top(ws, 0, width) == Border
    ensures forall j :: 0 <= j < |ws| ==> Top(ws, j + 1, width) == Top(ws, j, width) + WidgetHeight(ws[j], width)
    ensures PanelHeight(ws, width) == Top(ws, |ws|, width) + Border
  {
    assert ws[..|ws|] == ws;
    forall j | 0 <= j < |ws|
      ensures Top(ws, j + 1, width) == Top(ws, j, width) + WidgetHeight(ws[j], width)
    {
      assert ws[..j + 1][..j] == ws[..j];
    }
  }

  lemma {:induction false} SlidersHeight(names: seq<SliderName>, width: nat)
    ensures StackHeight(Sliders(names), width) == RowHeight * |names|
  {
    if names != [] {
      assert Sliders(names)[..|names| - 1] == Sliders(names[..|names| - 1]);
      SlidersHeight(names[..|names| - 1], width);
    }
  }

  /**
   * The panel height for each window state: the title bar alone in
   * NO_DISPLAY; title bar, preview and the tag's group in ADJUSTMENT_SLIDERS;
   * title bar, preview and the two FOV sliders in FOV_SLIDERS.
   */
  lemma PanelHeightByState(state: WindowState, tag: string, width: nat)
    requires state == AdjustmentSliders ==> tag in SliderGroups
    ensures state == NoDisplay ==> PanelHeight(WidgetList(state, tag), width) == 2 * Border + RowHeight
    ensures state == AdjustmentSliders ==>
              PanelHeight(WidgetList(state, tag), width) ==
              2 * Border + RowHeight + PreviewHeight(width) + RowHeight * |SliderGroups[tag]|
    ensures state == FovSliders ==>
              PanelHeight(WidgetList(state, tag), width) ==
              2 * Border + RowHeight + PreviewHeight(width) + 2 * RowHeight
  {
    var pre := [TitleBar] + (if state != NoDisplay then [Preview] else []);
    var group := if state == AdjustmentSliders then SliderGroups[tag]
                 else if state == FovSliders then SliderGroups["FOV"] else [];
    assert WidgetList(state, tag) == pre + Sliders(group);
    StackHeightAppend(pre, Sliders(group), width);
    SlidersHeight(group, width);
    assert StackHeight([TitleBar], width) == RowHeight by {
      assert [TitleBar][..0] == [];
    }
    if state != NoDisplay {
      assert pre[..1] == [TitleBar];
    }
  }
}

=== FILE: sessions.dfy ===
/**
 * The session and the tunings it owns, as far as the tuning panel uses them.
 * The session is an object the panel refers to without owning it; the panel
 * compares sessions by reference and reads and writes the tuning at its index.
 */
module Sessions {
  import opened Wrappers
  import opened Setups

  /** A colour, by its name ("#cccccc"). */
  type Color = string

  /** The session's editing mode; the panel's reaction to it does not depend on it. */
  datatype Mode = ScreenSetup | ProjectionSetup | Warp | Blend | Export | OtherMode

  /** One projector of the session: its display colour and its optional projector setup. */
  datatype TuningRecord = TuningRecord(color: Color, projectorSetup: Option<Setup>)

  class Session {
    var tunings: seq<TuningRecord>
    var mode: Mode

    constructor (tunings: seq<TuningRecord>, mode: Mode)
      ensures this.tunings == tunings && this.mode == mode
    {
      this.tunings := tunings;
      this.mode := mode;
    }
  }

  /** The source indexes the session's tunings without a bounds check; a bound index must be in range. */
  ghost predicate InRange(s: Session?, index: int)
    reads s
  {
    s != null ==> 0 <= index < |s.tunings|
  }

  /** The tuning at the index, or None when no session is bound (tuning()). */
  function TuningAt(s: Session?, index: int): (t: Option<TuningRecord>)
    reads s
    requires InRange(s, index)
  {
    if s == null then None else Some(s.tunings[index])
  }

  /** The type tag of the bound tuning's projector setup; "" when there is none. */
  function SetupTag(s: Session?, index: int): string
    reads s
    requires InRange(s, index)
  {
    match TuningAt(s, index)
    case Some(t) => (if t.projectorSetup.Some? then t.projectorSetup.value.TypeId() else "")
    case None => ""
  }

  /** The tunings with the colour of the one at index set to c. */
  function Recolored(ts: seq<TuningRecord>, index: int, c: Color): (r: seq<TuningRecord>)
    requires 0 <= index < |ts|
  {
    ts[index := ts[index].(color := c)]
  }
}

=== FILE: setups.dfy ===
/**
 * Projector setups as the tuning panel sees them: a type tag and a record of
 * named fields that the panel's sliders are copied into. The projector
 * geometry behind the setters (omni::proj::FreeSetup, PeripheralSetup) is not
 * part of this model; a setter is an update of one named field.
 */
module Setups {
  import opened Wrappers

  /** A slider reading. The panel copies slider readings and never computes with them. */
  type Value(00)

  /** The twelve sliders the panel creates, named by the label they are looked up by. */
  datatype SliderName =
    | FOV | ThrowRatio | Yaw | TowerHeight | Distance | Shift
    | X | Y | Z | Pitch | Roll | DeltaYaw

  /** The setup fields the panel writes, one per setter (setPos writes three). */
  datatype Field =
    | YawAngle | PitchAngle | RollAngle | PosX | PosY | PosZ
    | DeltaYawAngle | DistanceCenter | TowerHeightLevel | ShiftOffset

  type Fields = map<Field, Value>

  datatype Setup =
    | FreeSetup(fields: Fields)
    | PeripheralSetup(fields: Fields)
    | Other(tag: string, fields: Fields)
  {
    /** The type tag the setup reports (getTypeId). */
    function TypeId(): string {
      match this
      case FreeSetup(_) => "FreeSetup"
      case PeripheralSetup(_) => "PeripheralSetup"
      case Other(t, _) => t
    }
  }

  /**
   * The copy table of updateParameters, read per field: the slider a setup
   * field is copied from for the given type tag, or None when the branch for
   * that tag does not set the field. Tags other than "FreeSetup" and
   * "PeripheralSetup" have no branch.
   */
  function CopiedFrom(tag: string, f: Field): Option<SliderName> {
    if tag == "FreeSetup" then
      match f
      case YawAngle => Some(Yaw)
      case PitchAngle => Some(Pitch)
      case RollAngle => Some(Roll)
      case PosX => Some(X)
      case PosY => Some(Y)
      case PosZ => Some(Z)
      case _ => None
    else if tag == "PeripheralSetup" then
      match f
      case YawAngle => Some(Yaw)
      case PitchAngle => Some(Pitch)
      case RollAngle => Some(Roll)
      case DeltaYawAngle => Some(DeltaYaw)
      case DistanceCenter => Some(Distance)
      case TowerHeightLevel => Some(TowerHeight)
      case ShiftOffset => Some(Shift)
      case _ => None
    else
      None
  }

  /** Every slider some field of the tag's table is copied from is present. */
  ghost predicate CanRead(tag: string, sliders: map<SliderName, Value>) {
    forall f :: CopiedFrom(tag, f).Some? ==> CopiedFrom(tag, f).value in sliders
  }

  /**
   * The setter calls of updateParameters for the setup's type tag, one field
   * at a time in the order the source calls them. The contract states the
   * result against the copy table: every field of the table holds its
   * slider's reading, every other field is as before, and the setup keeps
   * its kind and tag.
   */
  function ApplySetters(s: Setup, sliders: map<SliderName, Value>): (r: Setup)
    requires CanRead(s.TypeId(), sliders)
    ensures r == s.(fields := r.fields)
    ensures r.TypeId() == s.TypeId()
    ensures forall f :: CopiedFrom(s.TypeId(), f).Some? ==>
              f in r.fields && r.fields[f] == sliders[CopiedFrom(s.TypeId(), f).value]
    ensures forall f :: CopiedFrom(s.TypeId(), f).None? ==>
              (f in r.fields <==> f in s.fields) && (f in s.fields ==> r.fields[f] == s.fields[f])
  {
    if s.TypeId() == "FreeSetup" then
      assert CopiedFrom(s.TypeId(), YawAngle) == Some(Yaw) && CopiedFrom(s.TypeId(), PitchAngle) == Some(Pitch);
      assert CopiedFrom(s.TypeId(), RollAngle) == Some(Roll) && CopiedFrom(s.TypeId(), PosX) == Some(X);
      assert CopiedFrom(s.TypeId(), PosY) == Some(Y) && CopiedFrom(s.TypeId(), PosZ) == Some(Z);
      var f := s.fields[YawAngle := sliders[Yaw]];
      var f := f[PitchAngle := sliders[Pitch]];
      var f := f[RollAngle := sliders[Roll]];
      var f := f[PosX := sliders[X]][PosY := sliders[Y]][PosZ := sliders[Z]];
      s.(fields := f)
    else if s.TypeId() == "PeripheralSetup" then
      assert CopiedFrom(s.TypeId(), YawAngle) == Some(Yaw) && CopiedFrom(s.TypeId(), PitchAngle) == Some(Pitch);
      assert CopiedFrom(s.TypeId(), RollAngle) == Some(Roll) && CopiedFrom(s.TypeId(), DeltaYawAngle) == Some(DeltaYaw);
      assert CopiedFrom(s.TypeId(), DistanceCenter) == Some(Distance);
      assert CopiedFrom(s.TypeId(), TowerHeightLevel) == Some(TowerHeight);
      assert CopiedFrom(s.TypeId(), ShiftOffset) == Some(Shift);
      var f := s.fields[YawAngle := sliders[Yaw]];
      var f := f[PitchAngle := sliders[Pitch]];
      var f := f[RollAngle := sliders[Roll]];
      var f := f[DeltaYawAngle := sliders[DeltaYaw]];
      var f := f[DistanceCenter := sliders[Distance]];
      var f := f[TowerHeightLevel := sliders[TowerHeight]];
      var f := f[ShiftOffset := sliders[Shift]];
      s.(fields := f)
    else
      s
  }

  /** Copying the same slider readings a second time changes nothing. */
  lemma ApplySettersIdempotent(s: Setup, sliders: map<SliderName, Value>)
    requires CanRead(s.TypeId(), sliders)
    ensures ApplySetters(ApplySetters(s, sliders), sliders) == ApplySetters(s, sliders)
  {
  }

  /** The FOV and throw-ratio sliders are never copied into any setup. */
  lemma FovNeverCopied(tag: string, f: Field)
    ensures CopiedFrom(tag, f) != Some(FOV) && CopiedFrom(tag, f) != Some(ThrowRatio)
  {
  }
}

=== FILE: tuning_panel.dfy ===
/**
 * The per-projector tuning panel (omni::ui::proj::Tuning) as a state machine
 * over plain values: its binding to a tuning of a session, its cyclic window
 * state, the layout pass, the copy of slider readings into the projector
 * setup, and the selection state with the accent colour it derives. Widgets
 * are visibility and geometry records; emitted signals are appended to a log.
 */
module TuningPanels {
  import opened Wrappers
  import opened Setups
  import opened Sessions
  import opened WindowStates
  import opened Layout

  datatype Rect = Rect(x: int, y: int, w: int, h: int)

  /** What the layout pass sets on a child widget: shown or hidden, and its geometry. */
  datatype WidgetState = WidgetState(visible: bool, geometry: Rect)

  /** A preview surface: the tuning it shows and how often it was asked to repaint. */
  datatype View = View(session: Session?, index: int, repaints: nat)

  /** The display flags setTuning resets on the embedded preview. */
  datatype DisplayFlags = DisplayFlags(border: real, keepAspectRatio: bool, viewOnly: bool)

  /** The signals the panel emits. */
  datatype Signal = Selected | ProjectorSetupChanged | Closed(index: int)

  /** The events eventFilter distinguishes. */
  datatype Event = FocusIn | FocusOut | MouseMove | OtherEvent

  /** The accent of every slider while the panel is not selected. */
  const Neutral: Color := "#cccccc"

  /** The geometry the layout pass gives the j-th listed widget. */
  function Slot(ws: seq<Widget>, j: nat, width: nat): Rect
    requires j < |ws|
  {
    Rect(Border, Top(ws, j, width), width - 2 * Border, WidgetHeight(ws[j], width))
  }

  /**
   * The widget records after a layout pass over list, from the records
   * before it: exactly the listed widgets are shown, each in its slot; the
   * unlisted ones keep their geometry; height and minimum height are the
   * stacked height inside the border.
   */
  ghost predicate Placed(widgets: map<Widget, WidgetState>, before: map<Widget, WidgetState>,
                         list: seq<Widget>, width: nat, height: int, minHeight: int)
  {
    && (forall w :: w in widgets ==> (widgets[w].visible <==> w in list))
    && (forall w :: w in widgets && w !in list ==> w in before && widgets[w].geometry == before[w].geometry)
    && (forall j :: 0 <= j < |list| ==> list[j] in widgets && widgets[list[j]].geometry == Slot(list, j, width))
    && height == PanelHeight(list, width)
    && minHeight == height
  }

  /**
   * Hiding every widget but the title bar and then showing a list that
   * starts with the title bar, each in its slot, is a complete layout pass.
   */
  lemma HideThenPlace(before: map<Widget, WidgetState>, hidden: map<Widget, WidgetState>,
                      placed: map<Widget, WidgetState>, list: seq<Widget>, width: nat, height: int)
    requires forall w: Widget :: w in before && w in hidden && w in placed
    requires forall w: Widget :: hidden[w].geometry == before[w].geometry
    requires forall w: Widget :: w != TitleBar ==> !hidden[w].visible
    requires |list| > 0 && list[0] == TitleBar
    requires forall j :: 0 <= j < |list| ==> placed[list[j]] == WidgetState(true, Slot(list, j, width))
    requires forall w :: w !in list ==> placed[w] == hidden[w]
    requires height == PanelHeight(list, width)
    ensures Placed(placed, before, list, width, height, height)
  {
    forall w | w in placed
      ensures placed[w].visible <==> w in list
    {
      if w in list {
        var j :| 0 <= j < |list| && list[j] == w;
      } else {
        assert placed[w] == hidden[w] && w != TitleBar;
      }
    }
  }

  /**
   * The layout pass can run: in ADJUSTMENT_SLIDERS it dereferences the bound
   * tuning's projector setup and looks its type tag up in the slider groups,
   * and both must succeed.
   */
  ghost predicate CanLayOut(s: Session?, index: int, state: WindowState)
    reads s
    requires InRange(s, index)
  {
    s != null && state == AdjustmentSliders ==>
      s.tunings[index].projectorSetup.Some? && SetupTag(s, index) in SliderGroups
  }

  /** Every child widget, not yet laid out. */
  function InitialWidgets(): (m: map<Widget, WidgetState>)
    ensures forall w: Widget :: w in m && !m[w].visible
  {
    var m := map w | w in AllWidgets :: WidgetState(false, Rect(0, 0, 0, 0));
    assert forall w: Widget :: w in m by {
      forall w: Widget ensures w in m {
        AllWidgetsCover(w);
      }
    }
    m
  }

  /**
   * The widget list of the layout pass, built as the source builds it: the
   * title bar, the preview pushed unless NO_DISPLAY, then the sliders of the
   * tag's group or of the "FOV" group pushed one at a time.
   */
  method CollectWidgets(state: WindowState, tag: string) returns (list: seq<Widget>)
    requires state == AdjustmentSliders ==> tag in SliderGroups
    ensures list == WidgetList(state, tag)
  {
    list := [TitleBar];
    if state != NoDisplay {
      list := list + [Preview];
    }
    ghost var head := list;
    if state == AdjustmentSliders {
      var group := SliderGroups[tag];
      for i := 0 to |group|
        invariant list == head + Sliders(group[..i])
      {
        assert Sliders(group[..i + 1]) == Sliders(group[..i]) + [Slider(group[i])];
        list := list + [Slider(group[i])];
      }
      assert group[..|group|] == group;
    }
    if state == FovSliders {
      var group := SliderGroups["FOV"];
      for i := 0 to |group|
        invariant list == head + Sliders(group[..i])
      {
        assert Sliders(group[..i + 1]) == Sliders(group[..i]) + [Slider(group[i])];
        list := list + [Slider(group[i])];
      }
      assert group[..|group|] == group;
    }
  }

  class TuningPanel {
    var index: int
    var session: Session?
    var windowState: WindowState
    var isSelected: bool
    /** The current reading of every slider (ParameterWidget's values by name). */
    var sliders: map<SliderName, Value>
    /** The selection colour each slider's style sheet was last given. */
    var accent: map<SliderName, Color>
    /** The title bar's colour. */
    var titleColor: Color
    var widgets: map<Widget, WidgetState>
    var width: nat
    var height: int
    var minHeight: int
    var preview: View
    var previewFlags: DisplayFlags
    /** The second, fullscreen preview, when a screen is attached. */
    var fullscreen: Option<View>
    var emitted: seq<Signal>

    /** Every slider has a reading and every child widget has a record. */
    ghost predicate Valid()
      reads this
    {
      (forall n: SliderName :: n in sliders) && (forall w: Widget :: w in widgets)
    }

    ghost predicate IndexInRange()
      reads this, session
    {
      InRange(session, index)
    }

    /** tuning(): the bound tuning, or None when no session is bound. */
    function Tuning(): Option<TuningRecord>
      reads this, session
      requires IndexInRange()
    {
      TuningAt(session, index)
    }

    /** The bound tuning's projector setup, or None when there is no tuning or no setup. */
    function BoundSetup(): Option<Setup>
      reads this, session
      requires IndexInRange()
    {
      match Tuning()
      case Some(t) => t.projectorSetup
      case None => None
    }

    /**
     * The widget records, height and minimum height are those of a completed
     * layout pass for the current window state and setup: exactly the listed
     * widgets are shown, each in its slot; the unlisted ones keep the
     * geometry they had before the pass; height and minimum height are the
     * stacked height inside the border.
     */
    ghost predicate Arranged(before: map<Widget, WidgetState>)
      reads this, session
      requires IndexInRange() && CanLayOut(session, index, windowState)
    {
      && session != null
      && Placed(widgets, before, WidgetList(windowState, SetupTag(session, index)), width, height, minHeight)
    }

    /**
     * Every slider's accent is the title colour while selected and the
     * neutral grey otherwise.
     */
    ghost predicate AccentsMatch()
      reads this
    {
      forall n: SliderName :: n in accent && accent[n] == (if isSelected then titleColor else Neutral)
    }

    /**
     * The unbound panel after setup(): the header's initial values are
     * parameters (the window state, the title bar's colour, the sliders'
     * default readings, the preview's own display defaults); setup itself
     * turns on keepAspectRatio, and its final sessionModeChange does nothing
     * because no session is bound.
     */
    constructor Unbound(width: nat, titleColor: Color, windowState: WindowState,
                        sliders: map<SliderName, Value>, viewDefaults: DisplayFlags)
      requires forall n: SliderName :: n in sliders
      ensures Valid() && IndexInRange()
      ensures this.session == null && this.index == 0 && !this.isSelected
      ensures this.width == width && this.titleColor == titleColor
      ensures this.windowState == windowState && this.sliders == sliders
      ensures this.previewFlags == viewDefaults.(keepAspectRatio := true)
      ensures this.preview == View(null, 0, 0) && this.fullscreen == None && this.emitted == []
      ensures this.accent == map[] && this.widgets == InitialWidgets()
      ensures this.height == 0 && this.minHeight == 0
    {
      this.index := 0;
      this.session := null;
      this.windowState := windowState;
      this.isSelected := false;
      this.sliders := sliders;
      this.accent := map[];
      this.titleColor := titleColor;
      this.widgets := InitialWidgets();
      this.width := width;
      this.height := 0;
      this.minHeight := 0;
      this.preview := View(null, 0, 0);
      this.previewFlags := viewDefaults.(keepAspectRatio := true);
      this.fullscreen := None;
      this.emitted := [];
    }

    /** The panel constructed for a tuning: setup() followed by setTuning(index, session). */
    constructor Bound(index: int, session: Session, width: nat, windowState: WindowState,
                      sliders: map<SliderName, Value>, viewDefaults: DisplayFlags)
      requires forall n: SliderName :: n in sliders
      requires 0 <= index < |session.tunings| && CanLayOut(session, index, windowState)
      ensures Valid() && IndexInRange()
      ensures this.session == session && this.index == index && this.windowState == windowState
      ensures this.titleColor == session.tunings[index].color
      ensures this.preview == View(session, index, 1)
      ensures this.previewFlags == DisplayFlags(0.0, false, true)
      ensures this.width == width && this.sliders == sliders
      ensures !this.isSelected && this.accent == map[] && this.fullscreen == None && this.emitted == []
      ensures Arranged(InitialWidgets())
    {
      this.index := 0;
      this.session := null;
      this.windowState := windowState;
      this.isSelected := false;
      this.sliders := sliders;
      this.accent := map[];
      this.titleColor := "";
      this.widgets := InitialWidgets();
      this.width := width;
      this.height := 0;
      this.minHeight := 0;
      this.preview := View(null, 0, 0);
      this.previewFlags := viewDefaults.(keepAspectRatio := true);
      this.fullscreen := None;
      this.emitted := [];
      new;
      ghost var before := widgets;
      assert this.session != session;
      SetTuning(index, session);
      assert this.session == session && this.session != null && IndexInRange();
      assert Arranged(before);
    }

    /**
     * setTuning: stores the index and session; only when the pair differs
     * from the stored one, rebinds and resets the preview, takes the title
     * colour from the tuning, rebinds an attached fullscreen preview and
     * lays the panel out again. The tuning is dereferenced without a check,
     * so a changed pair must name an existing tuning.
     */
    method SetTuning(i: int, s: Session?)
      requires Valid()
      requires (s != session || i != index) ==>
                 s != null && 0 <= i < |s.tunings| && CanLayOut(s, i, windowState)
      modifies this`index, this`session, this`preview, this`previewFlags, this`titleColor,
               this`fullscreen, this`widgets, this`height, this`minHeight
      ensures Valid() && index == i && session == s
      ensures old(session) == s && old(index) == i ==>
                && preview == old(preview) && previewFlags == old(previewFlags)
                && titleColor == old(titleColor) && fullscreen == old(fullscreen)
                && widgets == old(widgets) && height == old(height) && minHeight == old(minHeight)
      ensures old(session) != s || old(index) != i ==>
                && s != null && IndexInRange()
                && preview == View(s, i, old(preview).repaints + 1)
                && previewFlags == DisplayFlags(0.0, false, true)
                && titleColor == s.tunings[i].color
                && fullscreen == (if old(fullscreen).Some? then Some(old(fullscreen).value.(session := s, index := i)) else None)
                && Arranged(old(widgets))
    {
      var newTuning := session != s || index != i;
      index := i;
      session := s;
      if newTuning {
        preview := preview.(session := session, index := index);
        previewFlags := DisplayFlags(0.0, false, true);
        preview := preview.(repaints := preview.repaints + 1);
        titleColor := session.tunings[index].color;
        if fullscreen.Some? {
          fullscreen := Some(fullscreen.value.(session := session, index := index));
        }
        SessionModeChange();
      }
    }

    /**
     * reorderWidgets: does nothing without a bound tuning; otherwise hides
     * the preview and every slider, builds the widget list for the window
     * state and the setup's type tag, stacks it inside the border and sets
     * the panel's height and minimum height to the total.
     */
    method ReorderWidgets()
      requires Valid() && IndexInRange() && CanLayOut(session, index, windowState)
      modifies this`widgets, this`height, this`minHeight
      ensures Valid()
      ensures session == null ==> widgets == old(widgets) && height == old(height) && minHeight == old(minHeight)
      ensures session != null ==> Arranged(old(widgets))
    {
      if session == null {
        return;
      }
      ghost var before := widgets;
      HideAll();
      ghost var hidden := widgets;
      var tag := SetupTag(session, index);
      var list := CollectWidgets(windowState, tag);
      WidgetListMembers(windowState, tag);
      WidgetListDistinct(windowState, tag);
      PlaceWidgets(list);
      HideThenPlace(before, hidden, widgets, list, width, height);
      assert list == WidgetList(windowState, SetupTag(session, index));
    }

    /** The first step of the layout pass: the preview and every slider are hidden. */
    method HideAll()
      requires Valid()
      modifies this`widgets
      ensures Valid()
      ensures forall w: Widget :: widgets[w].geometry == old(widgets[w].geometry)
      ensures widgets[TitleBar] == old(widgets[TitleBar])
      ensures forall w: Widget :: w != TitleBar ==> !widgets[w].visible
    {
      widgets := widgets[Preview := widgets[Preview].(visible := false)];
      for i := 0 to |Parameters|
        invariant Valid()
        invariant forall w: Widget :: widgets[w].geometry == old(widgets[w].geometry)
        invariant widgets[TitleBar] == old(widgets[TitleBar]) && !widgets[Preview].visible
        invariant forall k :: 0 <= k < i ==> !widgets[Slider(Parameters[k])].visible
      {
        var w := Slider(Parameters[i]);
        widgets := widgets[w := widgets[w].(visible := false)];
      }
      forall w: Widget | w.Slider?
        ensures !widgets[w].visible
      {
        ParametersCover(w.name);
        var k :| 0 <= k < |Parameters| && Parameters[k] == w.name;
      }
    }

    /**
     * The last step of the layout pass: each listed widget is shown in its
     * slot, one below the other from the top border, and the panel's height
     * and minimum height become the stacked height plus the bottom border.
     */
    method PlaceWidgets(list: seq<Widget>)
      requires Valid()
      requires forall i, j :: 0 <= i < j < |list| ==> list[i] != list[j]
      modifies this`widgets, this`height, this`minHeight
      ensures Valid()
      ensures forall j :: 0 <= j < |list| ==> widgets[list[j]] == WidgetState(true, Slot(list, j, width))
      ensures forall w :: w !in list ==> widgets[w] == old(widgets[w])
      ensures height == PanelHeight(list, width) && minHeight == height
    {
      Stacked(list, width);
      var y := Border;
      for i := 0 to |list|
        invariant Valid()
        invariant y == Top(list, i, width)
        invariant forall j :: 0 <= j < i ==> widgets[list[j]] == WidgetState(true, Slot(list, j, width))
        invariant forall w :: w !in list ==> widgets[w] == old(widgets[w])
      {
        var h := if list[i] == Preview then (3 * width) / 4 else RowHeight;
        assert Rect(Border, y, width - Border * 2, h) == Slot(list, i, width);
        widgets := widgets[list[i] := WidgetState(true, Rect(Border, y, width - Border * 2, h))];
        y := y + h;
      }
      y := y + Border;
      minHeight := y;
      height := y;
    }

    /** sessionModeChange: its switch on the session's mode does nothing; with a session bound it lays out again. */
    method SessionModeChange()
      requires Valid() && IndexInRange() && CanLayOut(session, index, windowState)
      modifies this`widgets, this`height, this`minHeight
      ensures Valid()
      ensures session == null ==> widgets == old(widgets) && height == old(height) && minHeight == old(minHeight)
      ensures session != null ==> Arranged(old(widgets))
    {
      if session == null {
        return;
      }
      ReorderWidgets();
    }

    /** setWindowState: stores the state and lays out again. */
    method SetWindowState(state: WindowState)
      requires Valid() && IndexInRange() && CanLayOut(session, index, state)
      modifies this`windowState, this`widgets, this`height, this`minHeight
      ensures Valid() && windowState == state
      ensures session == null ==> widgets == old(widgets) && height == old(height) && minHeight == old(minHeight)
      ensures session != null ==> Arranged(old(widgets))
    {
      windowState := state;
      ReorderWidgets();
    }

    /** setNextWindowState: moves to (state + 1) % NUM_WINDOW_STATES and lays out again. */
    method SetNextWindowState()
      requires Valid() && IndexInRange() && CanLayOut(session, index, Next(windowState))
      modifies this`windowState, this`widgets, this`height, this`minHeight
      ensures Valid() && windowState == Next(old(windowState))
      ensures Ordinal(windowState) == (Ordinal(old(windowState)) + 1) % NumWindowStates
      ensures session == null ==> widgets == old(widgets) && height == old(height) && minHeight == old(minHeight)
      ensures session != null ==> Arranged(old(widgets))
    {
      SetWindowState(FromOrdinal((Ordinal(windowState) + 1) % NumWindowStates));
    }

    /** updateViews: asks the preview, and the fullscreen preview when attached, to repaint. */
    method UpdateViews()
      modifies this`preview, this`fullscreen
      ensures preview == old(preview).(repaints := old(preview).repaints + 1)
      ensures fullscreen.Some? <==> old(fullscreen).Some?
      ensures fullscreen.Some? ==> fullscreen.value == old(fullscreen).value.(repaints := old(fullscreen).value.repaints + 1)
    {
      preview := preview.(repaints := preview.repaints + 1);
      if fullscreen.Some? {
        fullscreen := Some(fullscreen.value.(repaints := fullscreen.value.repaints + 1));
      }
    }

    /**
     * updateParameters: without a bound tuning or without a projector setup
     * nothing happens. Otherwise the slider readings are copied into the
     * setup by its type tag (ApplySetters), both previews repaint and
     * projectorSetupChanged is emitted, whatever the tag.
     */
    method UpdateParameters()
      requires Valid() && IndexInRange()
      modifies this`preview, this`fullscreen, this`emitted, session
      ensures Valid() && IndexInRange()
      ensures session != null ==> session.mode == old(session.mode)
      ensures old(BoundSetup()).None? ==>
                && preview == old(preview) && fullscreen == old(fullscreen) && emitted == old(emitted)
                && (session != null ==> session.tunings == old(session.tunings))
      ensures old(BoundSetup()).Some? ==>
                && session.tunings == old(session.tunings)[index :=
                     old(session.tunings[index]).(projectorSetup := Some(ApplySetters(old(BoundSetup()).value, sliders)))]
                && preview == old(preview).(repaints := old(preview).repaints + 1)
                && fullscreen == (if old(fullscreen).Some?
                                  then Some(old(fullscreen).value.(repaints := old(fullscreen).value.repaints + 1))
                                  else None)
                && emitted == old(emitted) + [ProjectorSetupChanged]
    {
      if session == null {
        return;
      }
      var t := session.tunings[index];
      if t.projectorSetup.None? {
        return;
      }
      var p := t.projectorSetup.value;
      session.tunings := session.tunings[index := t.(projectorSetup := Some(ApplySetters(p, sliders)))];
      UpdateViews();
      emitted := emitted + [ProjectorSetupChanged];
    }

    /**
     * updateColor: gives every slider the accent for the selection state and,
     * while selected with a tuning bound, sets the tuning's colour to the
     * title colour.
     */
    method UpdateColor()
      requires Valid() && IndexInRange()
      modifies this`accent, session
      ensures Valid() && IndexInRange() && AccentsMatch()
      ensures session != null ==> session.mode == old(session.mode)
      ensures session != null && isSelected ==> session.tunings == Recolored(old(session.tunings), index, titleColor)
      ensures session != null && !isSelected ==> session.tunings == old(session.tunings)
    {
      for i := 0 to |Parameters|
        invariant IndexInRange()
        invariant session != null ==> session.mode == old(session.mode)
        invariant forall k :: 0 <= k < i ==>
                    Parameters[k] in accent && accent[Parameters[k]] == (if isSelected then titleColor else Neutral)
        invariant session != null && isSelected && i > 0 ==> session.tunings == Recolored(old(session.tunings), index, titleColor)
        invariant session != null && !(isSelected && i > 0) ==> session.tunings == old(session.tunings)
      {
        var color := if isSelected then titleColor else Neutral;
        accent := accent[Parameters[i] := color];
        if session != null && isSelected {
          session.tunings := session.tunings[index := session.tunings[index].(color := color)];
        }
      }
      forall n: SliderName ensures n in accent && accent[n] == (if isSelected then titleColor else Neutral) {
        ParametersCover(n);
        var k :| 0 <= k < |Parameters| && Parameters[k] == n;
      }
    }

    /** setSelected: stores the flag, emits selected only when it is true, and updates the accents. */
    method SetSelected(b: bool)
      requires Valid() && IndexInRange()
      modifies this`isSelected, this`emitted, this`accent, session
      ensures Valid() && IndexInRange() && isSelected == b && AccentsMatch()
      ensures emitted == old(emitted) + (if b then [Selected] else [])
      ensures session != null ==> session.mode == old(session.mode)
      ensures session != null && b ==> session.tunings == Recolored(old(session.tunings), index, titleColor)
      ensures session != null && !b ==> session.tunings == old(session.tunings)
    {
      isSelected := b;
      if isSelected {
        emitted := emitted + [Selected];
      }
      UpdateColor();
    }

    /**
     * eventFilter: focus-in selects the panel and consumes the event,
     * focus-out deselects it and passes the event on, and any other event is
     * passed on with nothing changed.
     */
    method EventFilter(e: Event) returns (consumed: bool)
      requires Valid() && (e == FocusIn || e == FocusOut ==> IndexInRange())
      modifies this`isSelected, this`emitted, this`accent, session
      ensures Valid() && (e == FocusIn || e == FocusOut ==> IndexInRange())
      ensures consumed <==> e == FocusIn
      ensures session != null ==> session.mode == old(session.mode)
      ensures e == FocusIn ==> isSelected && AccentsMatch() && emitted == old(emitted) + [Selected]
      ensures e == FocusIn && session != null ==> session.tunings == Recolored(old(session.tunings), index, titleColor)
      ensures e == FocusOut ==> !isSelected && AccentsMatch() && emitted == old(emitted)
      ensures e != FocusIn && e != FocusOut ==>
                isSelected == old(isSelected) && accent == old(accent) && emitted == old(emitted)
      ensures e != FocusIn && session != null ==> session.tunings == old(session.tunings)
    {
      if e == FocusIn {
        SetSelected(true);
        return true;
      } else if e == FocusOut {
        SetSelected(false);
        return false;
      }
      return false;
    }

    /** focusInEvent and focusOutEvent: select or deselect the panel. */
    method FocusChanged(gained: bool)
      requires Valid() && IndexInRange()
      modifies this`isSelected, this`emitted, this`accent, session
      ensures Valid() && IndexInRange() && isSelected == gained && AccentsMatch()
      ensures emitted == old(emitted) + (if gained then [Selected] else [])
      ensures session != null ==> session.mode == old(session.mode)
      ensures session != null && gained ==> session.tunings == Recolored(old(session.tunings), index, titleColor)
      ensures session != null && !gained ==> session.tunings == old(session.tunings)
    {
      SetSelected(gained);
    }

    /** prepareRemove: emits closed with the bound index. */
    method PrepareRemove()
      modifies this`emitted
      ensures emitted == old(emitted) + [Closed(index)]
    {
      emitted := emitted + [Closed(index)];
    }

    /** attachScreen: creates a fullscreen preview bound to the panel's tuning. */
    method AttachScreen()
      modifies this`fullscreen
      ensures fullscreen == Some(View(session, index, 0))
    {
      fullscreen := Some(View(session, index, 0));
    }

    /** detachScreen: drops the fullscreen preview. */
    method DetachScreen()
      modifies this`fullscreen
      ensures fullscreen == None
    {
      fullscreen := None;
    }

    /** showEvent: lays the panel out. */
    method ShowEvent()
      requires Valid() && IndexInRange() && CanLayOut(session, index, windowState)
      modifies this`widgets, this`height, this`minHeight
      ensures Valid()
      ensures session == null ==> widgets == old(widgets) && height == old(height) && minHeight == old(minHeight)
      ensures session != null ==> Arranged(old(widgets))
    {
      ReorderWidgets();
    }

    /**
     * The toolkit resizing the panel: the width changes and resizeEvent only
     * repaints, so the layout is not redone until the next layout pass.
     */
    method Resize(newWidth: nat)
      modifies this`width
      ensures width == newWidth
    {
      width := newWidth;
    }
  }

  /**
   * NUM_WINDOW_STATES successive setNextWindowState calls bring a panel back
   * to the window state it started in.
   */
  method CycleWindowStates(p: TuningPanel)
    requires p.Valid() && p.IndexInRange()
    requires forall s :: CanLayOut(p.session, p.index, s)
    modifies p`windowState, p`widgets, p`height, p`minHeight
    ensures p.Valid() && p.windowState == old(p.windowState)
  {
    p.SetNextWindowState();
    p.SetNextWindowState();
    p.SetNextWindowState();
    AdvanceCycle(old(p.windowState), NumWindowStates);
  }
}

=== FILE: window_states.dfy ===
/** The panel's cyclic display mode (Tuning::WindowState). */
module WindowStates {

  datatype WindowState = NoDisplay | AdjustmentSliders | FovSliders

  /** NUM_WINDOW_STATES. */
  const NumWindowStates: nat := 3

  /** The enumerator's integer value, in declaration order. */
  function Ordinal(s: WindowState): (n: nat)
    ensures n < NumWindowStates
  {
    match s
    case NoDisplay => 0
    case AdjustmentSliders => 1
    case FovSliders => 2
  }

  /** The enumerator with a given integer value (the static_cast back to WindowState). */
  function FromOrdinal(n: nat): (s: WindowState)
    requires n < NumWindowStates
    ensures Ordinal(s) == n
  {
    if n == 0 then NoDisplay else if n == 1 then AdjustmentSliders else FovSliders
  }

  lemma OrdinalRoundTrip(s: WindowState)
    ensures FromOrdinal(Ordinal(s)) == s
  {
  }

  /** The state setNextWindowState moves to: the following enumerator, wrapping after the last. */
  function Next(s: WindowState): WindowState {
    FromOrdinal((Ordinal(s) + 1) % NumWindowStates)
  }

  /** The state after n successive calls of setNextWindowState. */
  function Advance(s: WindowState, n: nat): WindowState {
    if n == 0 then s else Next(Advance(s, n - 1))
  }

  /** The cycle visits the three states in declaration order and wraps after FOV_SLIDERS. */
  lemma NextOrder()
    ensures Next(NoDisplay) == AdjustmentSliders
    ensures Next(AdjustmentSliders) == FovSliders
    ensures Next(FovSliders) == NoDisplay
  {
  }

  /** n successive advances add n to the ordinal, modulo NUM_WINDOW_STATES. */
  lemma {:induction false} AdvanceOrdinal(s: WindowState, n: nat)
    ensures Ordinal(Advance(s, n)) == (Ordinal(s) + n) % NumWindowStates
  {
    if n > 0 {
      AdvanceOrdinal(s, n - 1);
    }
  }

  /** NUM_WINDOW_STATES successive advances return to the starting state, and no fewer do. */
  lemma AdvanceCycle(s: WindowState, n: nat)
    ensures Advance(s, n) == s <==> n % NumWindowStates == 0
  {
    AdvanceOrdinal(s, n);
    OrdinalRoundTrip(s);
    OrdinalRoundTrip(Advance(s, n));
  }
}

=== FILE: wrappers.dfy ===
/** Optional values, used where the source holds a pointer that may be null. */
module Wrappers {
  datatype Option<+T> = None | Some(value: T)
}
